=== FILE: README.md ===
# Ritmo Runner rhythm judgement, modelled in Dafny

Ritmo Runner is a pygame game that teaches rhythm. Note symbols scroll toward a hit zone in one of four lanes
(keys A, S, D, F). The player presses the lane's key when the note arrives. This project models the game's
judgement engine as pure functions over an immutable game state:

- the tempo (120 BPM, so a beat is 0.5 s) and the three nested hit windows (0.08 / 0.15 / 0.25 s);
- the figure catalog (redonda … semicorchea) and the three-level table;
- spawning a note (`spawn_note`);
- judging a key press (`check_hit`): nearest-note selection, Perfect/Good/Ok classification, accuracy,
  points, combo, best combo and stats;
- the per-frame update (`update`) while PLAYING: the spawn accumulator, pruning, the timeout sweep and
  the one-way level ratchet;
- the PLAYING guard that freezes everything time-based in other phases.

Modules follow the program's structure:

- `Rhythm` (`rhythm.dfy`): constants, catalogs and phases.
- `Notes` (`notes.dfy`): a note and its timing.
- `Judge` (`judge.dfy`): selection, tiers and scoring arithmetic.
- `Session` (`session.dfy`): the game state and its operations.
- `Replay` (`replay.dfy`): arbitrary interleavings of presses and frames.

Modelling assumptions:

- Time is exact `real` seconds. The source's floating-point values 0.08, 0.15, 0.25, 1.2 and 1.5 become
  exact decimals.
- Python's `int()` is applied only to non-negative values here, so it is modelled as `.Floor`.
- Wall-clock reads (`pygame.time.get_ticks() / 1000 - start_time`) become a `now` parameter.
  The source reads the clock once in `spawn_note` and once more in the sweep of the same frame; the model
  uses one reading for both.
- The random draws of `spawn_note` become a `Draw(pick, lane, lead)` parameter. `ValidDraw` constrains it
  to the ranges of `random.choice`, `random.randint(0, 3)` and `random.uniform(3, 5)`.
- `lane = KEYS.index(key)` raises for a key outside A/S/D/F. The model takes the lane directly and
  requires it to be in 0..3.

Behaviour of the code that the model keeps:

- A key press that hits nothing resets the combo but leaves the miss counter alone. Only the timeout
  sweep counts misses (`ritmo_runner.py:381-386` and `ritmo_runner.py:428`).
- When two candidate notes are equally near, the earliest note in the list wins. The scan replaces its
  best note only on a strictly smaller distance.
- The level rises by at most one per frame. It rises when the score is strictly above
  `2000 * (level + 1)` and a further level exists.
- Notes leave the list by screen position, whatever their resolution. So a pending note could in principle
  be dropped before the sweep counts it.
- When a note spawns, the spawn accumulator is reset to zero rather than reduced by the interval. After a
  level-up it can exceed the new, shorter interval until the next frame spawns. So `Valid` bounds it by the
  first level's interval, and `TickPreserves` bounds it by the interval of the level the frame started on.
- `check_hit` has no PLAYING check of its own. Its caller, the event loop, is not part of this model, so
  `CheckHit` has no such check either.

## Model

| member | source | states |
|---|---|---|
| Rhythm.TimingConstants | ritmo_runner.py:45-49 | a beat lasts 0.5 s at 120 BPM, and the Perfect, Good and Ok windows are strictly nested |
| Rhythm.FiguresHalve | ritmo_runner.py:58-64 | every figure lasts twice as long as the next shorter one, and all durations are positive |
| Rhythm.LevelsWellFormed | ritmo_runner.py:67-89 | three levels; each can spawn a figure at a positive interval; each later level keeps the earlier figures, scrolls faster and spawns more often |
| Notes.Diff | ritmo_runner.py:324-325 | the press-to-note distance is non-negative and equals the signed gap one way or the other |
| Notes.DueAtTargetBeat | ritmo_runner.py:306-308 | a note is exactly on time precisely when the beat position equals its target beat |
| Judge.NearestUpTo | ritmo_runner.py:318-328 | the scan returns nothing iff no pending same-lane note lies strictly inside the Ok window; otherwise it returns one at minimal distance that is strictly nearer than every earlier candidate |
| Judge.Nearest | ritmo_runner.py:318-328 | over the whole list, a press finds no note exactly when no candidate exists. Otherwise the note it finds is nearest, and strictly nearer than every earlier candidate |
| Judge.NearestInUnique | ritmo_runner.py:326 | at most one note satisfies the selection rule, so the strict tie-break makes the choice deterministic |
| Judge.NearestCharacterized | ritmo_runner.py:318-328 | the press selects note i iff i satisfies the selection rule, and selects nothing iff no note is a candidate |
| Judge.Classify | ritmo_runner.py:335-349 | a hit gets the narrowest window that contains its distance: inside the Ok window the tier's window contains it, and every narrower window does not |
| Judge.MultiplierFollowsWindow | ritmo_runner.py:335-348 | a narrower window carries a strictly larger multiplier (1.5 > 1.2 > 1.0), all at least 1 |
| Judge.Accuracy | ritmo_runner.py:332 | for a selected distance, accuracy lies in (0, 1] and equals 1 exactly for a dead-on hit |
| Judge.BasePoints | ritmo_runner.py:352 | base points lie in 0..100 and are 100 exactly for a dead-on hit |
| Judge.BasePointsMonotone | ritmo_runner.py:352 | a nearer hit never earns fewer base points |
| Judge.Points | ritmo_runner.py:352-354 | with raw = base points plus ten per prior combo step, the points are floor(raw × 1.5) for Perfect, floor(raw × 1.2) for Good and raw for Ok, written in integer arithmetic; so they lie between raw and one and a half times raw |
| Judge.PointsMonotoneInCombo | ritmo_runner.py:353-354 | a longer prior streak never earns fewer points for the same timing |
| Session.Record | ritmo_runner.py:335-349 | a hit raises exactly the counter of its tier, by one; the other tier counters and the miss counter are unchanged |
| Session.CheckHit | ritmo_runner.py:313-386 | a press misses iff no candidate exists, and then only the combo changes (to 0). Otherwise it hits the selected nearest note and only that note, flagging it hit. The reported accuracy is `Accuracy` of the distance. The points are `Points` of the distance and the combo before the increment, and they are added to the score. It then raises the combo by one, keeps max combo at least the combo, bumps one tier counter, and fires the streak flag iff the new combo is a multiple of ten |
| Session.SweepNotes | ritmo_runner.py:422-428 | every overdue pending note is marked missed and every other note is left alone; the count returned is the number of overdue indices |
| Session.Sweep | ritmo_runner.py:420-428 | after the sweep no note is overdue; resolved notes are untouched; the miss counter grows by the number of overdue notes; the combo is 0 if any timed out and is otherwise unchanged; nothing else changes |
| Session.SweepIdempotent | ritmo_runner.py:422-426 | a second sweep at the same time changes nothing |
| Session.SpawnNote | ritmo_runner.py:302-311 | one pending, well-formed note is appended: lane 0..3, a figure of the current level, target beat 3 to 5 beats ahead; it is not due yet, and the rest of the state is unchanged |
| Session.SpawnStep | ritmo_runner.py:410-415 | a note is appended iff the accumulator plus dt exceeds the spawn interval, and at most one is. The appended note is exactly the one `SpawnNote` makes. The accumulator is then reset to 0 if a note spawned, and otherwise grows by dt. It ends within the interval and, for non-negative inputs, non-negative |
| Session.Prune | ritmo_runner.py:418 | pruning keeps each note the on-screen test keeps, with its multiplicity, drops every other note, and adds none |
| Session.LevelUpBounded | ritmo_runner.py:441-444 | the ratchet never lowers the level, raises it by at most one, and never leaves the table |
| Session.Tick | ritmo_runner.py:401-445 | outside PLAYING a frame is the identity. A frame never changes phase, score, max combo or the tier counters. While PLAYING the notes after the frame match, position by position, the list `Prune` keeps from the spawner's list, each overdue pending one marked missed and every other one unchanged; the miss counter grows by exactly the number of overdue notes kept. The combo resets to 0 exactly when the miss counter rose and is otherwise unchanged. The level rises by at most one within the table, at most one note is added, and no overdue pending note is left |
| Session.SpawnStepAddsPending | ritmo_runner.py:410-415 | the spawner keeps every note already in the list and adds only pending notes |
| Session.ExpireKeepsResolved | ritmo_runner.py:422-426 | marking overdue notes missed keeps every resolved note and flags no note hit |
| Session.FrameKeepsResolutions | ritmo_runner.py:410-428 | a frame never undoes or fakes a judgement: every hit or missed note the on-screen test keeps survives unchanged, and every hit note after the frame was already hit before it |
| Session.SpawnStepKeepsNotes | ritmo_runner.py:302-311 | spawning keeps every note well formed |
| Session.PruneKeepsNotes | ritmo_runner.py:418 | pruning keeps every note well formed |
| Session.SweepKeepsNotes | ritmo_runner.py:422-426 | the sweep never gives a note both flags |
| Session.TickPreserves | ritmo_runner.py:401-445 | a frame keeps the invariant, score, max combo and tier counters, resets the combo exactly when it counts a miss, and moves the level up by at most one, exactly when PLAYING and past the threshold. While PLAYING it leaves no overdue pending note and keeps the accumulator within the starting level's interval |
| Session.CheckHitPreserves | ritmo_runner.py:330-357 | a press keeps the invariant (max combo ≥ combo, notes never both hit and missed) and never lowers score or max combo |
| Session.HitIsTerminal | ritmo_runner.py:321-331 | a note once hit is never selected by a later press and never touched by a later sweep |
| Session.PerfectHitScenario | ritmo_runner.py:330-357 | a press 0.02 s after a note due at 10 s, with combo 9, is Perfect with accuracy 0.92. It earns 273 points, brings the combo to 10 and fires the streak flag |
| Session.NewGame | ritmo_runner.py:243-257 | a new game is in the menu on the first level, with zero score, combo and max combo, no notes, a zero spawn accumulator and all four counters at zero, and it satisfies the invariant |
| Replay.ApplyPreserves | ritmo_runner.py:313-445 | any single press or frame keeps the invariant and the phase, and never lowers score, max combo or level |
| Replay.RunPreserves | ritmo_runner.py:313-445 | over any sequence of presses and frames the invariant holds, score and max combo never decrease, and the level never decreases and stays within the table |
| Replay.FramesFrozenUnlessPlaying | ritmo_runner.py:401-402 | outside PLAYING any number of frames leave the state unchanged |
| Replay.ComboCountsHits | ritmo_runner.py:356 | over a run where every press hits and no frame times a note out, the combo grows by exactly the number of presses |

## Left out

- Rendering: particles, the player figure, note drawing, background, lanes, UI, menu and tutorial screens, the scroll offset, lane flash decay and the feedback text and timer. These are visual output with no judgement logic.
- Audio synthesis and playback (`generate_sounds`, `generate_sine_sound`, `Sound.play`). These are floating-point waveforms and calls into the mixer.
- Note fields used only for drawing (colour, pulse, screen coordinates) and the level background colour.
- Floating-point rounding in `int(100 * accuracy)` and in the 1.2 and 1.5 multipliers. All arithmetic is exact.
- The transitions between menu, tutorial, playing, paused and game over, the re-basing of the start time on pause, and restart. The event loop that drives them is not part of this model. Only the PLAYING guard of the frame update is modelled.
- Session.Prune: the on-screen test is an arbitrary predicate `stays`, because a note's screen position is a rendering matter. The contract states membership, multiplicity and length, not that the relative order of the kept notes is preserved.

=== FILE: judge.dfy ===
/** The judge: which pending note a key press hits, how good the hit is,
    and how many points it earns. */
module Judge {
  import opened Rhythm
  import opened Notes

  /** The outcome of a search that may find nothing. */
  datatype Option<T> = None | Some(value: T)

  /** Note `j` could be hit by a press on `lane` at `now`: it is pending,
      sits in that lane, and is strictly inside the Ok window. */
  predicate Candidate(notes: seq<Note>, lane: int, now: real, j: int)
  {
    0 <= j < |notes| && Pending(notes[j]) && notes[j].lane == lane && Diff(notes[j], now) < OkWindow
  }

  /** Among the first `n` notes, `i` is the candidate nearest in time, and
      every earlier candidate is strictly farther (so ties go to the
      earliest note in the list). */
  predicate NearestIn(notes: seq<Note>, lane: int, now: real, n: nat, i: int)
    requires n <= |notes|
  {
    && 0 <= i < n
    && Candidate(notes, lane, now, i)
    && (forall j :: 0 <= j < n && Candidate(notes, lane, now, j) ==> Diff(notes[i], now) <= Diff(notes[j], now))
    && (forall j :: 0 <= j < i && Candidate(notes, lane, now, j) ==> Diff(notes[i], now) < Diff(notes[j], now))
  }

  /** The left-to-right scan over the first `n` notes that keeps the best
      note so far and replaces it only on a strictly smaller distance. */
  function NearestUpTo(notes: seq<Note>, lane: int, now: real, n: nat): (r: Option<nat>)
    requires n <= |notes|
    ensures r.None? <==> forall j :: 0 <= j < n ==> !Candidate(notes, lane, now, j)
    ensures r.Some? ==> NearestIn(notes, lane, now, n, r.value)
    decreases n
  {
    if n == 0 then None
    else
      var best := NearestUpTo(notes, lane, now, n - 1);
      if Candidate(notes, lane, now, n - 1)
         && (best.None? || Diff(notes[n - 1], now) < Diff(notes[best.value], now))
      then Some(n - 1)
      else best
  }

  /** The note a press on `lane` at `now` hits, if any: none exactly when
      no note of the list is a candidate, otherwise the one the selection
      rule picks over the whole list. */
  function Nearest(notes: seq<Note>, lane: int, now: real): (r: Option<nat>)
    ensures r.None? <==> forall j :: !Candidate(notes, lane, now, j)
    ensures r.Some? ==> NearestIn(notes, lane, now, |notes|, r.value)
  {
    NearestUpTo(notes, lane, now, |notes|)
  }

  /** At most one note satisfies the selection rule. */
  lemma NearestInUnique(notes: seq<Note>, lane: int, now: real, n: nat, i: int, k: int)
    requires n <= |notes|
    requires NearestIn(notes, lane, now, n, i) && NearestIn(notes, lane, now, n, k)
    ensures i == k
  {
  }

  /** The scan picks exactly the note the selection rule describes, and
      picks nothing exactly when no note qualifies. */
  lemma NearestCharacterized(notes: seq<Note>, lane: int, now: real, i: int)
    ensures Nearest(notes, lane, now) == Some(i) <==> NearestIn(notes, lane, now, |notes|, i)
    ensures Nearest(notes, lane, now) == None <==> forall j :: !Candidate(notes, lane, now, j)
  {
  }

  /** The three hit tiers. */
  datatype Tier = Perfect | Good | Ok

  /** The tolerance window that bounds a tier. */
  function Window(t: Tier): real
  {
    match t
    case Perfect => PerfectWindow
    case Good => GoodWindow
    case Ok => OkWindow
  }

  /** Score multiplier of a tier: 1.5, 1.2 and 1.0. */
  function Multiplier(t: Tier): real
  {
    match t
    case Perfect => 1.5
    case Good => 1.2
    case Ok => 1.0
  }

  /** Tier of a hit at distance `diff`: the narrowest window that contains
      it. Windows are checked from the narrowest outwards. */
  function Classify(diff: real): (t: Tier)
    ensures diff < OkWindow ==> diff < Window(t)
    ensures forall u: Tier :: Window(u) < Window(t) ==> Window(u) <= diff
  {
    if diff < PerfectWindow then Perfect
    else if diff < GoodWindow then Good
    else Ok
  }

  /** A narrower window never scores less: the multiplier falls as the
      window widens. */
  lemma MultiplierFollowsWindow(t: Tier, u: Tier)
    requires Window(t) < Window(u)
    ensures Multiplier(t) > Multiplier(u) >= 1.0
  {
  }

  /** Accuracy of a hit: 1 at the due time, falling linearly to 0 at the
      edge of the Ok window. */
  function Accuracy(diff: real): (a: real)
    requires 0.0 <= diff < OkWindow
    ensures 0.0 < a <= 1.0
    ensures a == 1.0 <==> diff == 0.0
  {
    1.0 - diff / OkWindow
  }

  /** Whole points for accuracy, before combo bonus and multiplier. */
  function BasePoints(diff: real): (b: int)
    requires 0.0 <= diff < OkWindow
    ensures 0 <= b <= 100
    ensures b == 100 <==> diff == 0.0
  {
    (100.0 * Accuracy(diff)).Floor
  }

  /** A nearer hit never earns fewer base points. */
  lemma BasePointsMonotone(d1: real, d2: real)
    requires 0.0 <= d1 <= d2 < OkWindow
    ensures BasePoints(d2) <= BasePoints(d1)
  {
  }

  /** Points for a hit at distance `diff` with `combo` consecutive hits
      before it: base points plus ten per combo step, times the tier's
      multiplier, rounded down. */
  function Points(diff: real, combo: nat): (p: nat)
    requires 0.0 <= diff < OkWindow
    ensures BasePoints(diff) + 10 * combo <= p
    ensures 2 * p <= 3 * (BasePoints(diff) + 10 * combo)
    ensures var raw := BasePoints(diff) + 10 * combo;
      p == match Classify(diff)
           case Perfect => (raw * 15) / 10
           case Good => (raw * 12) / 10
           case Ok => raw
  {
    var raw := (BasePoints(diff) + combo * 10) as real;
    (raw * Multiplier(Classify(diff))).Floor
  }

  /** A longer streak never earns fewer points for the same timing. */
  lemma PointsMonotoneInCombo(diff: real, c1: nat, c2: nat)
    requires 0.0 <= diff < OkWindow
    requires c1 <= c2
    ensures Points(diff, c1) <= Points(diff, c2)
  {
  }
}

=== FILE: notes.dfy ===
/** A spawned note and its timing relative to the clock. */
module Notes {
  import opened Rhythm

  /** A note: its figure, lane, the beat at which it should reach the hit
      zone, the level it was spawned on, and its two resolution flags.
      `hit` and `missed` are one-way: once either is set the note is
      resolved and no judgement looks at it again. */
  datatype Note = Note(figure: Figure, lane: int, beatTime: real, level: nat, hit: bool, missed: bool)

  /** A note that is neither hit nor missed yet. */
  predicate Pending(n: Note)
  {
    !n.hit && !n.missed
  }

  function Abs(x: real): real
  {
    if x < 0.0 then -x else x
  }

  /** Clock time, in seconds, at which the note is due. */
  function ExpectedTime(n: Note): real
  {
    n.beatTime * BeatDuration
  }

  /** Beat position at clock time `now`. */
  function BeatAt(now: real): real
  {
    now / BeatDuration
  }

  /** Distance, in seconds, between a press at `now` and the note's due time. */
  function Diff(n: Note, now: real): (d: real)
    ensures d >= 0.0
    ensures d == now - ExpectedTime(n) || d == ExpectedTime(n) - now
  {
    Abs(now - ExpectedTime(n))
  }

  /** A pending note whose due time lies more than the Ok window in the past. */
  predicate Overdue(n: Note, now: real)
  {
    Pending(n) && now - ExpectedTime(n) > OkWindow
  }

  /** The position and time of a note agree: a note is due exactly when the
      beat position reaches its target beat. */
  lemma DueAtTargetBeat(n: Note, now: real)
    ensures BeatAt(now) == n.beatTime <==> Diff(n, now) == 0.0
  {
  }
}

=== FILE: replay.dfy ===
/** A run as a sequence of inputs: key presses and frames, interleaved in
    any order. The loop that dispatches them is not part of this model, so
    every interleaving is admitted and the invariants are proved for all. */
module Replay {
  import opened Rhythm
  import opened Notes
  import opened Judge
  import opened Session

  /** One input: a press on a lane at a clock time, or a frame of `dt`
      seconds at a clock time with the random draws and the on-screen test
      that frame would use. */
  datatype Event =
    | KeyPress(lane: int, now: real)
    | Frame(dt: real, now: real, draw: Draw, stays: Note -> bool)

  /** The inputs the game can actually produce in state `g`: a press on one
      of the four lanes; a frame with a non-negative length whose draws are
      in range for the current level. */
  predicate EventOk(g: Game, e: Event)
  {
    match e
    case KeyPress(lane, _) => 0 <= lane < LaneCount
    case Frame(dt, _, d, _) => dt >= 0.0 && ValidDraw(d, g.level)
  }

  /** The state after one input. */
  function Apply(g: Game, e: Event): Game
    requires EventOk(g, e)
  {
    match e
    case KeyPress(lane, now) => CheckHit(g, lane, now).game
    case Frame(dt, now, d, stays) => Tick(g, dt, now, d, stays)
  }

  /** Every input of `es` is one the game can produce at the moment it
      arrives. */
  predicate Playable(g: Game, es: seq<Event>)
    decreases |es|
  {
    |es| == 0 || (EventOk(g, es[0]) && Playable(Apply(g, es[0]), es[1..]))
  }

  /** The state after all of `es`, in order. */
  function Run(g: Game, es: seq<Event>): Game
    requires Playable(g, es)
    decreases |es|
  {
    if |es| == 0 then g else Run(Apply(g, es[0]), es[1..])
  }

  /** Every press of `es` hits a note and no frame of `es` times a note
      out. */
  predicate AllHits(g: Game, es: seq<Event>)
    requires Playable(g, es)
    decreases |es|
  {
    |es| == 0 ||
      (&& (match es[0]
           case KeyPress(lane, now) => CheckHit(g, lane, now).judgement.Hit?
           case Frame(_, _, _, _) => Apply(g, es[0]).stats.miss == g.stats.miss)
       && AllHits(Apply(g, es[0]), es[1..]))
  }

  /** The number of key presses in `es`. */
  function PressCount(es: seq<Event>): nat
    decreases |es|
  {
    if |es| == 0 then 0 else (if es[0].KeyPress? then 1 else 0) + PressCount(es[1..])
  }

  /** One input keeps the invariant and never lowers score, best combo or
      level, and never changes the phase. */
  lemma ApplyPreserves(g: Game, e: Event)
    requires Valid(g) && EventOk(g, e)
    ensures var r := Apply(g, e);
      && Valid(r)
      && r.phase == g.phase
      && r.score >= g.score
      && r.maxCombo >= g.maxCombo
      && g.level <= r.level
  {
    match e
    case KeyPress(lane, now) => CheckHitPreserves(g, lane, now);
    case Frame(dt, now, d, stays) => TickPreserves(g, dt, now, d, stays);
  }

  /** Over a whole run the invariant holds (so best combo never falls below
      combo and the level stays in the table), score never decreases, and
      the level never goes down. */
  lemma {:induction false} RunPreserves(g: Game, es: seq<Event>)
    requires Valid(g) && Playable(g, es)
    ensures var r := Run(g, es);
      && Valid(r)
      && r.phase == g.phase
      && r.score >= g.score
      && r.maxCombo >= g.maxCombo
      && g.level <= r.level <= LastLevel
    decreases |es|
  {
    if |es| > 0 {
      ApplyPreserves(g, es[0]);
      RunPreserves(Apply(g, es[0]), es[1..]);
    }
  }

  /** Outside `Playing`, frames alone never change the state. */
  lemma {:induction false} FramesFrozenUnlessPlaying(g: Game, es: seq<Event>)
    requires Playable(g, es)
    requires g.phase != Playing
    requires forall k :: 0 <= k < |es| ==> es[k].Frame?
    ensures Run(g, es) == g
    decreases |es|
  {
    if |es| > 0 {
      assert forall k :: 0 <= k < |es[1..]| ==> es[1..][k].Frame? by {
        forall k | 0 <= k < |es[1..]|
          ensures es[1..][k].Frame?
        {
          assert es[1..][k] == es[k + 1];
        }
      }
      FramesFrozenUnlessPlaying(Apply(g, es[0]), es[1..]);
    }
  }

  /** When every press hits and no frame times a note out, the combo grows
      by exactly the number of presses. */
  lemma {:induction false} ComboCountsHits(g: Game, es: seq<Event>)
    requires Playable(g, es) && AllHits(g, es)
    ensures Run(g, es).combo == g.combo + PressCount(es)
    decreases |es|
  {
    if |es| > 0 {
      ComboCountsHits(Apply(g, es[0]), es[1..]);
    }
  }
}

=== FILE: rhythm.dfy ===
/** Tempo, hit windows, game phases and the two static catalogs of Ritmo
    Runner: the rhythmic figures and the difficulty levels.
    Times are seconds, written as exact reals. */
module Rhythm {

  /** Tempo in beats per minute. */
  const Bpm: nat := 120

  /** Length of one beat in seconds: 60 / Bpm, that is 0.5 s. */
  const BeatDuration: real := 60.0 / (Bpm as real)

  /** The three nested tolerance windows, in seconds. */
  const PerfectWindow: real := 0.08
  const GoodWindow: real := 0.15
  const OkWindow: real := 0.25

  /** One lane per key (A, S, D, F). */
  const LaneCount: nat := 4

  /** Score above which the level with index `level` is left behind. */
  function LevelThreshold(level: nat): nat
  {
    2000 * (level + 1)
  }

  /** The five rhythmic figures of the catalog. */
  datatype Figure = Redonda | Blanca | Negra | Corchea | Semicorchea

  /** Length of a figure in beats. */
  function Duration(f: Figure): real
  {
    match f
    case Redonda => 4.0
    case Blanca => 2.0
    case Negra => 1.0
    case Corchea => 0.5
    case Semicorchea => 0.25
  }

  /** The game phases. Only `Playing` lets time-based logic run. */
  datatype Phase = Menu | Tutorial | Playing | Paused | GameOver

  /** A difficulty level: the figures it may spawn, the scroll speed in
      pixels per second and the spawn interval in seconds. */
  datatype Level = Level(name: string, figures: seq<Figure>, speed: nat, spawnRate: real)

  /** The level table, easiest first. */
  const Levels: seq<Level> := [
    Level("Principiante", [Negra, Blanca, Corchea], 300, 2.5),
    Level("Intermedio", [Negra, Blanca, Corchea, Redonda], 380, 2.0),
    Level("Avanzado", [Negra, Blanca, Corchea, Semicorchea, Redonda], 450, 1.5)
  ]

  /** Index of the last level: the ratchet never goes beyond it. */
  const LastLevel: nat := |Levels| - 1

  /** Each figure lasts twice as long as the next shorter one, and every
      duration is positive. */
  lemma FiguresHalve()
    ensures Duration(Redonda) == 2.0 * Duration(Blanca)
    ensures Duration(Blanca) == 2.0 * Duration(Negra)
    ensures Duration(Negra) == 2.0 * Duration(Corchea)
    ensures Duration(Corchea) == 2.0 * Duration(Semicorchea)
    ensures forall f: Figure :: Duration(f) > 0.0
  {
  }

  /** The level table has three levels; every level can spawn something and
      spawns at a positive interval; each later level keeps the figures of the
      one before, scrolls faster and spawns more often. */
  lemma LevelsWellFormed()
    ensures |Levels| == 3 && LastLevel == 2
    ensures forall k :: 0 <= k < |Levels| ==> |Levels[k].figures| > 0 && Levels[k].spawnRate > 0.0
    ensures forall k :: 0 <= k < LastLevel ==>
      (forall f :: f in Levels[k].figures ==> f in Levels[k + 1].figures)
    ensures forall k :: 0 <= k < LastLevel ==>
      Levels[k].speed < Levels[k + 1].speed && Levels[k + 1].spawnRate < Levels[k].spawnRate
  {
  }

  /** The tempo makes a beat half a second long, and the windows nest. */
  lemma TimingConstants()
    ensures BeatDuration == 0.5
    ensures 0.0 < PerfectWindow < GoodWindow < OkWindow
  {
  }
}

=== FILE: session.dfy ===
/** The per-run game state and the operations that change it: judging a key
    press, the once-per-frame update (spawn, prune, timeout sweep, level
    ratchet), and the invariant they keep. */
module Session {
  import opened Rhythm
  import opened Notes
  import opened Judge

  /** Counters per judgement outcome. */
  datatype Stats = Stats(perfect: nat, good: nat, ok: nat, miss: nat)

  /** The counter of a hit tier. */
  function Count(s: Stats, t: Tier): nat
  {
    match t
    case Perfect => s.perfect
    case Good => s.good
    case Ok => s.ok
  }

  /** Records one hit of tier `t`: exactly that counter moves, by one. */
  function Record(s: Stats, t: Tier): (r: Stats)
    ensures Count(r, t) == Count(s, t) + 1
    ensures forall u: Tier :: u != t ==> Count(r, u) == Count(s, u)
    ensures r.miss == s.miss
  {
    match t
    case Perfect => s.(perfect := s.perfect + 1)
    case Good => s.(good := s.good + 1)
    case Ok => s.(ok := s.ok + 1)
  }

  /** The state of one run. `beatTimer` is the spawn accumulator in
      seconds. */
  datatype Game = Game(
    phase: Phase,
    score: nat,
    combo: nat,
    maxCombo: nat,
    level: nat,
    notes: seq<Note>,
    beatTimer: real,
    stats: Stats)

  /** The state a freshly constructed game starts in: in the menu, on the
      first level, with nothing scored and no notes. */
  function NewGame(): (r: Game)
    ensures Valid(r)
    ensures r.phase == Menu && r.level == 0 && r.notes == []
    ensures r.score == r.combo == r.maxCombo == 0
    ensures r.stats == Stats(0, 0, 0, 0) && r.beatTimer == 0.0
  {
    Game(Menu, 0, 0, 0, 0, [], 0.0, Stats(0, 0, 0, 0))
  }

  /** A note as the spawner makes it and the judge leaves it: a real lane,
      a figure its level allows, and never both resolution flags. */
  predicate WellFormedNote(n: Note)
  {
    && 0 <= n.lane < LaneCount
    && n.level < |Levels|
    && n.figure in Levels[n.level].figures
    && !(n.hit && n.missed)
  }

  predicate AllWellFormed(notes: seq<Note>)
  {
    forall k :: 0 <= k < |notes| ==> WellFormedNote(notes[k])
  }

  /** The invariant every reachable state keeps. The spawn accumulator is
      bounded by the longest spawn interval, that of the first level: right
      after a level-up it may exceed the new, shorter interval. */
  predicate Valid(g: Game)
  {
    && g.level < |Levels|
    && g.combo <= g.maxCombo
    && 0.0 <= g.beatTimer <= Levels[0].spawnRate
    && AllWellFormed(g.notes)
  }

  // ---------------------------------------------------------------------
  // Key press
  // ---------------------------------------------------------------------

  /** What a press produced: nothing hit, or the index of the note hit with
      its tier, accuracy, points, and whether a ten-hit streak fired. */
  datatype Judgement =
    | Miss
    | Hit(index: nat, tier: Tier, accuracy: real, points: nat, streak: bool)

  /** The state after a press, and its judgement. */
  datatype Press = Press(game: Game, judgement: Judgement)

  /** A press on `lane` at clock time `now`. The nearest qualifying note is
      marked hit and scored; with no qualifying note the combo breaks and
      nothing else changes (the miss counter included). */
  function CheckHit(g: Game, lane: int, now: real): (r: Press)
    requires 0 <= lane < LaneCount
    ensures r.judgement.Miss? <==> forall j :: !Candidate(g.notes, lane, now, j)
    ensures r.judgement.Miss? ==> r.game == g.(combo := 0)
    ensures r.judgement.Hit? ==>
      var i := r.judgement.index;
      && NearestIn(g.notes, lane, now, |g.notes|, i)
      && |r.game.notes| == |g.notes|
      && r.game.notes[i] == g.notes[i].(hit := true)
      && (forall j :: 0 <= j < |g.notes| && j != i ==> r.game.notes[j] == g.notes[j])
      && r.judgement.tier == Classify(Diff(g.notes[i], now))
      && r.judgement.accuracy == Accuracy(Diff(g.notes[i], now))
      && 0.0 < r.judgement.accuracy <= 1.0
      && r.judgement.points == Points(Diff(g.notes[i], now), g.combo)
      && r.game.score == g.score + r.judgement.points
      && r.game.combo == g.combo + 1
      && r.game.maxCombo >= r.game.combo
      && r.game.maxCombo >= g.maxCombo
      && (r.game.maxCombo == g.maxCombo || r.game.maxCombo == r.game.combo)
      && Count(r.game.stats, r.judgement.tier) == Count(g.stats, r.judgement.tier) + 1
      && (forall u: Tier :: u != r.judgement.tier ==> Count(r.game.stats, u) == Count(g.stats, u))
      && r.game.stats.miss == g.stats.miss
      && (r.judgement.streak <==> r.game.combo % 10 == 0)
      && r.game == g.(notes := r.game.notes, score := r.game.score, combo := r.game.combo,
                      maxCombo := r.game.maxCombo, stats := r.game.stats)
  {
    match Nearest(g.notes, lane, now)
    case None => Press(g.(combo := 0), Miss)
    case Some(i) =>
      var d := Diff(g.notes[i], now);
      var t := Classify(d);
      var p := Points(d, g.combo);
      var c := g.combo + 1;
      var g' := g.(notes := g.notes[i := g.notes[i].(hit := true)],
                   score := g.score + p,
                   combo := c,
                   maxCombo := if g.maxCombo >= c then g.maxCombo else c,
                   stats := Record(g.stats, t));
      Press(g', Hit(i, t, Accuracy(d), p, c > 0 && c % 10 == 0))
  }

  // ---------------------------------------------------------------------
  // Timeout sweep
  // ---------------------------------------------------------------------

  /** Indices of the notes that are pending and overdue at `now`. */
  function OverdueIndices(notes: seq<Note>, now: real): set<nat>
  {
    set k: nat | k < |notes| && Overdue(notes[k], now)
  }

  /** A note after the sweep: overdue notes become missed. */
  function Expire(n: Note, now: real): Note
  {
    if Overdue(n, now) then n.(missed := true) else n
  }

  /** Splitting off the last note splits the overdue indices. */
  lemma OverdueIndicesSnoc(notes: seq<Note>, now: real)
    requires |notes| > 0
    ensures var m := |notes| - 1;
      OverdueIndices(notes, now) ==
        OverdueIndices(notes[..m], now) + (if Overdue(notes[m], now) then {m} else {})
  {
  }

  /** Marks every overdue note missed, and counts them. */
  function SweepNotes(notes: seq<Note>, now: real): (r: (seq<Note>, nat))
    ensures |r.0| == |notes|
    ensures forall k :: 0 <= k < |notes| ==> r.0[k] == Expire(notes[k], now)
    ensures r.1 == |OverdueIndices(notes, now)|
    decreases |notes|
  {
    if |notes| == 0 then
      assert OverdueIndices(notes, now) == {};
      ([], 0)
    else
      var m := |notes| - 1;
      var rest := SweepNotes(notes[..m], now);
      OverdueIndicesSnoc(notes, now);
      assert m !in OverdueIndices(notes[..m], now);
      (rest.0 + [Expire(notes[m], now)], rest.1 + if Overdue(notes[m], now) then 1 else 0)
  }

  /** The timeout sweep of one frame: every overdue pending note becomes
      missed, the miss counter grows by their number, and the combo breaks
      if there was at least one. */
  function Sweep(g: Game, now: real): (r: Game)
    ensures |r.notes| == |g.notes|
    ensures forall k :: 0 <= k < |g.notes| ==> !Overdue(r.notes[k], now)
    ensures forall k :: 0 <= k < |g.notes| && !Pending(g.notes[k]) ==> r.notes[k] == g.notes[k]
    ensures forall k :: 0 <= k < |g.notes| && Overdue(g.notes[k], now) ==>
      r.notes[k] == g.notes[k].(missed := true)
    ensures forall k :: 0 <= k < |g.notes| && !Overdue(g.notes[k], now) ==> r.notes[k] == g.notes[k]
    ensures r.stats == g.stats.(miss := g.stats.miss + |OverdueIndices(g.notes, now)|)
    ensures r.combo == if OverdueIndices(g.notes, now) == {} then g.combo else 0
    ensures r == g.(notes := r.notes, combo := r.combo, stats := r.stats)
  {
    var swept := SweepNotes(g.notes, now);
    g.(notes := swept.0,
       combo := if swept.1 > 0 then 0 else g.combo,
       stats := g.stats.(miss := g.stats.miss + swept.1))
  }

  /** Sweeping twice at the same time changes nothing the first sweep did
      not: after a sweep no note is overdue. */
  lemma SweepIdempotent(g: Game, now: real)
    ensures Sweep(Sweep(g, now), now) == Sweep(g, now)
  {
  }

  // ---------------------------------------------------------------------
  // Spawning
  // ---------------------------------------------------------------------

  /** The random draws of one spawn: an index into the level's figure list,
      a lane, and a lead time in beats. */
  datatype Draw = Draw(pick: nat, lane: int, lead: real)

  /** The ranges of the three draws. */
  predicate ValidDraw(d: Draw, level: nat)
  {
    && level < |Levels|
    && d.pick < |Levels[level].figures|
    && 0 <= d.lane < LaneCount
    && 3.0 <= d.lead <= 5.0
  }

  /** Appends one new pending note, due three to five beats after `now`. */
  function SpawnNote(g: Game, now: real, d: Draw): (r: Game)
    requires ValidDraw(d, g.level)
    ensures |r.notes| == |g.notes| + 1 && r.notes[..|g.notes|] == g.notes
    ensures var n := r.notes[|g.notes|];
      && Pending(n)
      && WellFormedNote(n)
      && n.level == g.level
      && BeatAt(now) + 3.0 <= n.beatTime <= BeatAt(now) + 5.0
      && !Overdue(n, now)
      && Diff(n, now) >= 3.0 * BeatDuration
    ensures r == g.(notes := r.notes)
  {
    var fig := Levels[g.level].figures[d.pick];
    var n := Note(fig, d.lane, BeatAt(now) + d.lead, g.level, false, false);
    g.(notes := g.notes + [n])
  }

  /** The spawn accumulator of one frame: add `dt`; once it exceeds the
      level's spawn interval, spawn one note and reset it to zero. */
  function SpawnStep(g: Game, dt: real, now: real, d: Draw): (r: Game)
    requires ValidDraw(d, g.level)
    ensures r.beatTimer <= Levels[g.level].spawnRate
    ensures g.beatTimer >= 0.0 && dt >= 0.0 ==> r.beatTimer >= 0.0
    ensures |g.notes| <= |r.notes| <= |g.notes| + 1 && r.notes[..|g.notes|] == g.notes
    ensures |r.notes| == |g.notes| + 1 <==> g.beatTimer + dt > Levels[g.level].spawnRate
    ensures |r.notes| == |g.notes| + 1 ==> r.notes == SpawnNote(g, now, d).notes
    ensures |r.notes| == |g.notes| + 1 ==> r.beatTimer == 0.0
    ensures |r.notes| == |g.notes| ==> r.beatTimer == g.beatTimer + dt
    ensures r == g.(notes := r.notes, beatTimer := r.beatTimer)
  {
    var timer := g.beatTimer + dt;
    if timer > Levels[g.level].spawnRate then SpawnNote(g, now, d).(beatTimer := 0.0)
    else g.(beatTimer := timer)
  }

  // ---------------------------------------------------------------------
  // Pruning, level ratchet, and the whole frame
  // ---------------------------------------------------------------------

  /** Drops the notes that have scrolled off screen. Where a note is on
      screen is a rendering matter, so `stays` stands for that test. */
  function Prune(notes: seq<Note>, stays: Note -> bool): (r: seq<Note>)
    ensures |r| <= |notes|
    ensures forall n :: n in r ==> n in notes && stays(n)
    ensures forall n :: n in notes && stays(n) ==> n in r
    ensures forall n :: multiset(r)[n] == if stays(n) then multiset(notes)[n] else 0
    decreases |notes|
  {
    if |notes| == 0 then []
    else
      var rest := Prune(notes[1..], stays);
      assert notes == [notes[0]] + notes[1..];
      assert forall n :: n in notes[1..] ==> n in notes;
      if stays(notes[0]) then [notes[0]] + rest else rest
  }

  /** The level ratchet: one level up when the score is above the current
      level's threshold and a further level exists. */
  function LevelUp(g: Game): Game
  {
    if g.score > LevelThreshold(g.level) && g.level < LastLevel then g.(level := g.level + 1)
    else g
  }

  /** The ratchet moves up by at most one, never down, and never past the
      last level. */
  lemma LevelUpBounded(g: Game)
    requires g.level < |Levels|
    ensures g.level <= LevelUp(g).level <= g.level + 1
    ensures LevelUp(g).level < |Levels|
    ensures LevelUp(g).level == g.level + 1 ==> g.score > 2000 * (g.level + 1)
  {
  }

  /** One frame of `dt` seconds at clock time `now`. Outside `Playing`
      nothing happens; in `Playing` the spawner, the pruning, the timeout
      sweep and the level ratchet run in that order. */
  function Tick(g: Game, dt: real, now: real, d: Draw, stays: Note -> bool): (r: Game)
    requires ValidDraw(d, g.level)
    ensures g.phase != Playing ==> r == g
    ensures r.phase == g.phase && r.score == g.score && r.maxCombo == g.maxCombo
    ensures r.stats == g.stats.(miss := r.stats.miss) && r.stats.miss >= g.stats.miss
    ensures r.combo == if r.stats.miss == g.stats.miss then g.combo else 0
    ensures g.level <= r.level <= g.level + 1 && r.level < |Levels|
    ensures g.phase == Playing ==> |r.notes| <= |g.notes| + 1
    ensures g.phase == Playing ==> forall k :: 0 <= k < |r.notes| ==> !Overdue(r.notes[k], now)
    ensures g.phase == Playing ==>
      var kept := Prune(SpawnStep(g, dt, now, d).notes, stays);
      && |r.notes| == |kept|
      && (forall k :: 0 <= k < |kept| ==> r.notes[k] == Expire(kept[k], now))
      && r.stats.miss == g.stats.miss + |OverdueIndices(kept, now)|
  {
    if g.phase != Playing then g
    else
      var spawned := SpawnStep(g, dt, now, d);
      var pruned := spawned.(notes := Prune(spawned.notes, stays));
      LevelUp(Sweep(pruned, now))
  }

  /** Spawning keeps every old note and adds only pending ones. */
  lemma SpawnStepAddsPending(g: Game, dt: real, now: real, d: Draw)
    requires ValidDraw(d, g.level)
    ensures var s := SpawnStep(g, dt, now, d).notes;
      && (forall n :: n in g.notes ==> n in s)
      && (forall n :: n in s ==> n in g.notes || Pending(n))
  {
  }

  /** Expiring notes one by one keeps every resolved note and flags no new
      note hit. */
  lemma ExpireKeepsResolved(kept: seq<Note>, out: seq<Note>, now: real)
    requires |out| == |kept|
    requires forall k :: 0 <= k < |kept| ==> out[k] == Expire(kept[k], now)
    ensures forall n :: n in kept && !Pending(n) ==> n in out
    ensures forall n :: n in out && n.hit ==> n in kept
  {
  }

  /** A frame never undoes or fakes a judgement: every resolved note the
      on-screen test keeps survives unchanged, and every note of the result
      that is hit was already in the list, hit, before the frame. */
  lemma FrameKeepsResolutions(g: Game, dt: real, now: real, d: Draw, stays: Note -> bool)
    requires ValidDraw(d, g.level)
    requires g.phase == Playing
    ensures var r := Tick(g, dt, now, d, stays);
      && (forall n :: n in g.notes && !Pending(n) && stays(n) ==> n in r.notes)
      && (forall n :: n in r.notes && n.hit ==> n in g.notes)
  {
    var r := Tick(g, dt, now, d, stays);
    var kept := Prune(SpawnStep(g, dt, now, d).notes, stays);
    SpawnStepAddsPending(g, dt, now, d);
    ExpireKeepsResolved(kept, r.notes, now);
  }

  /** Spawning adds only well-formed notes. */
  lemma SpawnStepKeepsNotes(g: Game, dt: real, now: real, d: Draw)
    requires ValidDraw(d, g.level)
    requires AllWellFormed(g.notes)
    ensures AllWellFormed(SpawnStep(g, dt, now, d).notes)
  {
  }

  /** Pruning keeps only notes that were already there. */
  lemma PruneKeepsNotes(notes: seq<Note>, stays: Note -> bool)
    requires AllWellFormed(notes)
    ensures AllWellFormed(Prune(notes, stays))
  {
  }

  /** The sweep sets `missed` only on pending notes, so no note ends up
      with both flags. */
  lemma SweepKeepsNotes(g: Game, now: real)
    requires AllWellFormed(g.notes)
    ensures AllWellFormed(Sweep(g, now).notes)
  {
  }

  /** A frame keeps the invariant, keeps score and best combo, moves the
      level up by at most one and only past its threshold, leaves no
      overdue pending note behind, and leaves the spawn accumulator within
      the spawn interval of the level the frame started on. */
  lemma TickPreserves(g: Game, dt: real, now: real, d: Draw, stays: Note -> bool)
    requires Valid(g)
    requires ValidDraw(d, g.level)
    requires dt >= 0.0
    ensures var r := Tick(g, dt, now, d, stays);
      && Valid(r)
      && r.phase == g.phase
      && r.score == g.score
      && r.maxCombo == g.maxCombo
      && r.stats == g.stats.(miss := r.stats.miss)
      && r.combo == (if r.stats.miss == g.stats.miss then g.combo else 0)
      && g.level <= r.level <= g.level + 1
      && (r.level == g.level + 1 <==>
            g.phase == Playing && g.score > LevelThreshold(g.level) && g.level < LastLevel)
      && (g.phase == Playing ==> r.beatTimer <= Levels[g.level].spawnRate)
      && (g.phase == Playing ==> forall k :: 0 <= k < |r.notes| ==> !Overdue(r.notes[k], now))
  {
    if g.phase == Playing {
      var spawned := SpawnStep(g, dt, now, d);
      SpawnStepKeepsNotes(g, dt, now, d);
      var pruned := spawned.(notes := Prune(spawned.notes, stays));
      PruneKeepsNotes(spawned.notes, stays);
      SweepKeepsNotes(pruned, now);
    }
  }

  /** A press keeps the invariant and never lowers score, best combo or
      level. */
  lemma CheckHitPreserves(g: Game, lane: int, now: real)
    requires Valid(g)
    requires 0 <= lane < LaneCount
    ensures var r := CheckHit(g, lane, now).game;
      && Valid(r)
      && r.score >= g.score
      && r.maxCombo >= g.maxCombo
      && r.level == g.level
      && r.phase == g.phase
  {
  }

  /** A note is judged at most once: after a hit, no later press selects it
      again and no sweep touches it. */
  lemma HitIsTerminal(g: Game, lane: int, now: real, lane2: int, now2: real)
    requires 0 <= lane < LaneCount && 0 <= lane2 < LaneCount
    requires CheckHit(g, lane, now).judgement.Hit?
    ensures var p := CheckHit(g, lane, now);
      var i := p.judgement.index;
      var q := CheckHit(p.game, lane2, now2);
      && (q.judgement.Hit? ==> q.judgement.index != i)
      && Sweep(p.game, now2).notes[i] == p.game.notes[i]
  {
  }

  /** Scenario: a note due at 10 s, a press at 10.02 s with a combo of nine.
      The hit is Perfect with 92 base points, earns (92 + 90) * 1.5 = 273
      points, lifts the combo to ten and fires the streak effect. */
  lemma PerfectHitScenario()
    ensures var n := Note(Negra, 0, 20.0, 0, false, false);
      var g := Game(Playing, 0, 9, 9, 0, [n], 0.0, Stats(9, 0, 0, 0));
      var p := CheckHit(g, 0, 10.02);
      && p.judgement == Hit(0, Perfect, 0.92, 273, true)
      && p.game.score == 273
      && p.game.combo == 10
      && p.game.maxCombo == 10
      && p.game.stats == Stats(10, 0, 0, 0)
  {
    var n := Note(Negra, 0, 20.0, 0, false, false);
    var g := Game(Playing, 0, 9, 9, 0, [n], 0.0, Stats(9, 0, 0, 0));
    assert Diff(n, 10.02) == 0.02;
    assert Candidate(g.notes, 0, 10.02, 0);
    assert Nearest(g.notes, 0, 10.02) == Some(0);
    assert Accuracy(0.02) == 0.92;
    assert BasePoints(0.02) == 92;
    assert Points(0.02, 9) == 273;
  }
}
